=== FILE: README.md ===
# SpaceGame entity simulation in Dafny

This project models the entity-simulation core of SpaceGame, a small pygame arcade
shooter (`test.py`). The ship, the enemies, the bullet and the heart pickup all
share one `Entity` base, which has:

- a position and a velocity (`Vector2`);
- a facing flag (`RightToLeft`);
- a contact counter (`touches`);
- a dead flag.

The game rules live in these operations:

- the border bounce and the border test;
- the pairwise collision response;
- the ship's thrust, speed cap and teleport;
- the teleport-point reward for kills;
- the enemies' sprite cycle and capped drift;
- the bullet's fire and reset;
- the heart's appearance and pickup;
- the main loop's life/cooldown bookkeeping.

How the model is organised:

- **One module per class.** `Vectors` (vector2.dfy), `Entities` (entity.dfy),
  `Bullets`, `Spaceships`, `Enemies`, `Items`, and `LifeSystem` for the main
  loop's hit bookkeeping. `Controls` holds the per-frame key snapshot.
- **Vectors are values.** `Vector2` is a datatype. The source never shares one
  vector object between two entities, so assigning a component (`position.x = 734`)
  is modelled as building a new vector.
- **Classes that change state.** `Entity` is a class whose fields its methods update.
  Every state-changing method's `ensures` gives its whole new state. The larger
  steps are stated through a closed-form function, and the game's properties are
  proved about those functions:
  - on `EntityState`, the snapshot of all five fields: `Bounced`, `Collided`,
    `SelfCollided`, `Killed`, `Respawned` and `Spaceships.ShipUpdated`;
  - on the velocity alone: `Enemies.Drifted`;
  - the simpler methods (`Update`, `FireBullet`, `RespawnBullet`, `Appear`, `Pickup`,
    `UseTeleport`, `TeleportPointsAdd`, `UpdateSprite`) state their new fields
    directly, or through small integer functions such as `TeleportGrant` and
    `NextSprite`.
- **Subclasses own an entity.** Each Python subclass becomes a class that owns one
  `Entity` as its `body` and adds its own fields.
- **Vector addition.** `__add__` with a float adds it to both components
  (`Vectors.AddScalar`); nothing in the core uses that form.
- **Squared lengths.** Apart from `shorten_length`, which divides by the length,
  lengths appear only in comparisons with constants. So
  `length() >= 300` is `LengthSquared(v) >= 90000`, and `distance < 36` is a squared
  distance below 1296. The two forms agree because both sides are non-negative.
- **Inputs as parameters.**
  - Every `random.randint` draw becomes a parameter with its range as a precondition.
  - The global `KEYMAP` becomes a `Keys` value, passed in.
  - The wall clock becomes the `now` of each check.
- **Teleport points.** `TELEPORT_POINTS` is a class attribute that `use_teleport`
  shadows on the instance. It is modelled as a per-ship field that starts at 3.

Behaviour of the code that a reader might not expect:

- **Collision nudge.** The nudge is 10 units. It moves only `self`, against its
  horizontal motion. Only when `self` has no horizontal motion are both entities
  moved, vertically, by 10 each.
- **Contact counts.** A hit adds 2 to `self.touches` and nothing to `other.touches`.
- **Separation.** The nudge does not always change the distance between the two
  entities (`Entities.NudgeMayKeepDistance`).
- **Cooldown length.** A hit that costs a life starts a cooldown of one second.
- **Cooldown lifetime.** The deadline `t` is reset to the current time at the start
  of every frame, and the cooldown ends once a clock reading is strictly later than
  it. So a hit tested at a reading strictly later than the frame start always costs
  a life, whatever cooldown an earlier frame started (`LifeSystem.FrameStartEndsCooldown`).
- **Enemy speed cap.** The enemy cap of 200 only governs the horizontal thrust. The
  downward drift is added after the check, so an enemy can leave `move` faster than
  200 (`Enemies.DriftCanExceedCap`).
- **Teleport direction.** The teleport is horizontal only. Up and down never teleport.
- **Kill reward.** `teleport_points_add` tests `kills - 1 % 2`, which Python reads as
  `kills - 1`. So a point is granted on every kill except the first.
- **Where `die` parks an entity.** `die` moves the entity to y in [-100, -50]. That is
  above the screen but inside the region `borders` leaves alone.
- **Border tests.** `is_touching_border` uses 0 as the top edge, while `borders`
  uses -100.

## Model

| member | source | states |
|---|---|---|
| Vectors.Add | test.py:29-35 | `v + w` for a vector: the component-wise sum, from which subtracting `w` gives `v` back |
| Vectors.AddScalar | test.py:29-31 | `v + s` for a float: `s` added to both components, that is `v + (s, s)` |
| Vectors.Mul | test.py:37-43 | `v * w` for a vector: the component-wise product; the factor (1, 1) keeps `v`, a zero factor zeroes its component |
| Vectors.Scale | test.py:37-39 | `v * s` for a float: the component-wise product with (s, s); 1 keeps `v`, 0 gives the zero vector |
| Vectors.LengthSquaredPositive | test.py:48-49 | a squared length is never negative and is zero exactly for the zero vector |
| Vectors.MulNoGrowth | test.py:37-43 | a component-wise product with factors in [-1, 1] never makes a vector longer |
| Vectors.ScaleLengthSquared | test.py:37-39 | scaling by k multiplies the squared length by k² |
| Vectors.ShortenLength | test.py:45-46 | shortening fails with a division by zero exactly for the zero vector |
| Vectors.ShortenLengthResult | test.py:45-49 | a shortened vector is parallel to the original and its length is the absolute value of length − reduction (its squared length is (length − reduction)²); its dot product with the original is positive for reduction < length and negative for reduction > length |
| Entities.Entity.constructor | test.py:63-69 | a new entity is at the given point, at rest, facing right-to-left, with no contacts, alive |
| Entities.Entity.Update | test.py:71-72 | position advances by velocity × dt; nothing else changes |
| Entities.Entity.IsDead | test.py:80-81 | reports the dead flag |
| Entities.Bounced | test.py:100-120 | after a bounce the entity is inside [2,735]×[-100,535]; side hits put x at 734/3, reflect vx, zero vy, set the facing and count a contact; the bottom puts y at 534, zeroes vx, reflects vy and counts; the top puts y at -90, zeroes vx and does not count; an entity inside is unchanged |
| Entities.Entity.Borders | test.py:100-120 | the step-by-step border method ends in exactly the `Bounced` state, inside the field |
| Entities.BouncedNoGrowth | test.py:103-120 | a bounce never increases the speed |
| Entities.BouncedIdempotent | test.py:100-120 | bouncing a bounced entity changes nothing |
| Entities.BouncedChangesIffOutside | test.py:100-120 | a bounce changes the entity if and only if it was outside the field |
| Entities.Entity.IsTouchingBorder | test.py:122-133 | true exactly when x > 735, x < 2, y > 535 or y < 0 |
| Entities.TouchingAfterBounce | test.py:100-133 | right after a bounce an entity touches a border exactly when it is in the strip -100 ≤ y < 0 |
| Entities.NotTouchingIsInField | test.py:122-133 | an entity that touches no border is inside the field |
| Entities.Collided | test.py:135-155 | a hit exactly below distance 36; no hit changes nothing; a hit adds 2 contacts to self and 0 to other, negates self's vx and other's vy, damps self's vy by -rnd1/10 and other's vx by -rnd/10, and applies the 10-unit nudge by the sign of self's vx; facing and dead flags are kept |
| Entities.Entity.Collision | test.py:135-155 | on two entities the method's result and both new states are exactly `Collided`; on one entity against itself it always hits and ends in `SelfCollided` |
| Entities.CollidedNoGrowth | test.py:150-152 | a collision never increases either entity's speed |
| Entities.SelfCollided | test.py:135-155 | an entity colliding with itself gains 2 contacts, keeps its height and flags, is nudged 10 against its horizontal motion, and has its velocity damped to (vx·rnd/10, vy·rnd1/10) with no sign flip; the game loop never makes this call |
| Entities.NudgeMayKeepDistance | test.py:142-149 | an entity 5 to the right of another and moving right is nudged to the mirror position, at the same distance |
| Entities.Killed | test.py:90-98 | a killed entity is at exactly (x, −y) from the draws, at rest, dead, above the screen and inside the border field; facing and contacts are kept |
| Entities.Entity.Die | test.py:90-98 | the method always reports true and ends in the `Killed` state |
| Entities.Respawned | test.py:83-88 | contacts reset to 0; more than 10 contacts move the entity to (rndX, -50), otherwise it stays; velocity and flags are kept |
| Entities.Entity.Respawn | test.py:83-88 | the method ends in the `Respawned` state |
| Bullets.Bullet.constructor | test.py:249-254 | a new bullet rests at the given point and is not shot |
| Bullets.Bullet.FireBullet | test.py:256-261 | fires exactly when left Alt is down: vy becomes -300 and the bullet is marked shot, which it stays; otherwise nothing changes |
| Bullets.Bullet.RespawnBullet | test.py:263-269 | back to the origin, at rest, facing right-to-left, no contacts; the shot flag is not reset |
| Spaceships.CappedVelocity | test.py:172-195 | a thrust whose speed stays below 300 is kept and a thrust reaching 300 is reverted to exactly the previous velocity (a revert, not a clamp) |
| Spaceships.SpeedCapPreserved | test.py:194-195 | a ship slower than 300 stays slower than 300 |
| Spaceships.TeleportShift | test.py:173-193 | +100 exactly when space and right are down with a point left; -100 exactly when space and left (but not right) are down with a point left; otherwise 0; never without left or right |
| Spaceships.TeleportCost | test.py:187-199 | one point is spent exactly when the ship jumps, and only when it had one |
| Spaceships.TeleportNeverOverdraws | test.py:187-199 | starting from zero or more points, an update leaves zero or more, at most one fewer |
| Spaceships.UpDownNeverTeleports | test.py:174-193 | with neither left nor right held, no point is spent and the ship only moves by its velocity |
| Spaceships.TeleportGrant | test.py:207-209 | a point is added exactly when kills ≠ 1 and fewer than 10 are held; the cap of 10 is kept |
| Spaceships.PointsAfterKillsClosedForm | test.py:207-209 | starting from at most 10 points, after n ≥ 1 kills the points are min(10, points + n − 1) when the run starts at zero kills, otherwise min(10, points + n) |
| Spaceships.PointsNeverExceedCap | test.py:207-209 | starting from at most 10, kills never lift the points above 10 |
| Spaceships.ShipUpdated | test.py:171-196 | the closed form of `update`: the velocity is `CappedVelocity`; y moves by the new velocity only; x moves by the new velocity plus a jump of 0 or ±100; facing, contacts and dead flag are kept |
| Spaceships.Spaceship.constructor | test.py:159-169 | a new ship is at (350, 500), at rest, with 3 lives, 0 kills and 3 points |
| Spaceships.Spaceship.Update | test.py:171-196 | velocity becomes `CappedVelocity`; x shifts by `TeleportShift` before moving by the new velocity; the points drop by `TeleportCost`; lives and kills are kept; points in 0..10 stay in 0..10 |
| Spaceships.Spaceship.ApplyThrust | test.py:173-186 | each held arrow key adds ±100·dt to its axis, and the recorded direction is the last one tested (right over left over down over up) |
| Spaceships.Spaceship.Teleport | test.py:187-193 | x shifts by `TeleportShift` and the points drop by `TeleportCost`; lives and kills are kept |
| Spaceships.Spaceship.UseTeleport | test.py:198-199 | spends exactly one point and changes nothing else |
| Spaceships.Spaceship.FirePos | test.py:204-205 | a fresh bullet, not shot, at rest 12 to the right of the ship |
| Spaceships.Spaceship.TeleportPointsAdd | test.py:207-209 | the points become `TeleportGrant` of the kills and old points; 0..10 is kept |
| Enemies.Enemy.constructor | test.py:215-226 | a new enemy is at (x, 0) with x in [200, 600], at rest, showing sprite 0 |
| Enemies.NextSprite | test.py:228-233 | the next sprite index stays in 0..4 and is the old one plus 1 modulo 5 |
| Enemies.SpriteAfter | test.py:228-233 | any number of sprite steps stays in 0..4 |
| Enemies.SpriteAfterIsModular | test.py:228-233 | n steps advance the index by n modulo 5 |
| Enemies.FiveStepsReturn | test.py:228-233 | five steps return the sprite to where it started |
| Enemies.Enemy.UpdateSprite | test.py:228-233 | the index takes its `NextSprite` value and stays in 0..4 |
| Enemies.Drifted | test.py:235-245 | vy grows by dy·dt; the horizontal thrust toward the facing side is kept when the pre-fall speed stays below 200 and reverted when it reaches 200 |
| Enemies.DriftFollowsFacing | test.py:237-242 | with dt ≥ 0 the horizontal drift never goes against the facing direction |
| Enemies.DriftCanExceedCap | test.py:243-245 | an enemy at (0, 199) leaves `move` faster than 200 with thrust 1, dy 35 and dt 1 |
| Enemies.Enemy.Move | test.py:235-245 | the method changes only the velocity, to `Drifted` |
| Items.Item.constructor | test.py:273-275 | a new heart is at the origin, at rest |
| Items.Item.Appear | test.py:277-281 | the heart is placed at the drawn point, inside [0,730]×[0,530] |
| Items.Item.Pickup | test.py:283-289 | within 36 of the ship the heart moves to (-100, -100) and the ship gains a life; otherwise nothing changes; kills and points are kept |
| Items.ParkedOutOfReach | test.py:286-289 | the spot where `pickup` parks a collected heart is off screen and farther than 36 from any ship with x ≥ 2; this is true of `pickup`'s own result only, since the heart's `borders` in the same loop pass then moves it to (3, -100) |
| LifeSystem.StartFrame | test.py:336 | a frame start resets the deadline to the current time and keeps the rest |
| LifeSystem.CheckHit | test.py:339-349 | a life is lost exactly on a hit outside the cooldown; a loss starts a one-second cooldown; otherwise the cooldown stays on exactly while the clock has not passed the deadline; the game stops exactly when a loss leaves fewer than 1 life |
| LifeSystem.CheckHitsMonotone | test.py:339-349 | over any run of checks the lives never rise and drop by at most one per check; a stopped game stays stopped |
| LifeSystem.GameOverWhenOutOfLives | test.py:344-349 | over runs of hit checks, the game runs exactly while at least one life is left (the heart's +1 is not one of these events) |
| LifeSystem.CooldownAbsorbsHits | test.py:339-346 | within one frame (no `StartFrame` in between), while the cooldown runs, checks up to the deadline change nothing |
| LifeSystem.OneLifePerSecond | test.py:342-346 | within one frame (no `StartFrame` in between), after a hit costs a life, hits within the next second cost nothing; across frames the reset deadline lets contact cost a life per frame |
| LifeSystem.FrameStartEndsCooldown | test.py:336-346 | after a frame start, a hit at a clock reading strictly later than that start always costs a life, whatever cooldown was running |

## Left out

- Rendering, image, font and window calls (`render`, `__repr__`, `blit`, image loading, captions): pygame I/O with no game logic.
- Keyboard event polling into `KEYMAP`: the model receives the resulting snapshot as a `Keys` value.
- `Vector2.length` and `print_scalar`: these are real square roots. The model compares squared lengths instead. `ShortenLength` takes the length as a parameter tied to the squared length.
- `Vector2.copy`: vectors are values here, so a copy is plain assignment.
- The `assert False` branches of `__add__` and `__mul__`: the types rule out operands that are neither a float nor a vector.
- Floating-point rounding: coordinates are exact reals.
- The distribution of `random.randint`: each draw is a parameter constrained to its range.
- The `main()` loop, apart from the hit bookkeeping in `LifeSystem`. Left out are the frame pacing, the FPS counter, the order of collision passes per entity, bullet replacement, periodic respawn and the heart's timer. They depend on wall-clock time and on per-frame plumbing.
- LifeSystem: a check reads the clock twice (the expiry test and the new deadline); the model uses one `now` for both. The `print` calls are not modelled.
- LifeSystem: its lives see only hits, not the heart's `pickup` +1 in the same loop pass. So `GameOverWhenOutOfLives` is about runs of hit checks only: a pickup right after the last life is lost leaves the game stopped with one life.
- Enemies.Enemy.UpdateSprite: requires the index to be in 0..4. The source keeps it there from construction on, and a value of 5 or more would fail when indexing `sprites`.
- Entities.Entity.Collision: a non-`Entity` argument (the `isinstance` test's other branch, which returns None) is excluded by the parameter type. The no-hit result None is modelled as false.
- main.py (a flat prototype of the same rules) and setup.py (packaging) are not part of this model.

=== FILE: bullet.dfy ===
/** The projectile of test.py (class Bullet). */
module Bullets {
  import opened Vectors
  import opened Entities
  import opened Controls

  /** The vertical velocity a fired bullet gets (upwards). */
  const ShotSpeed := -300.0

  class Bullet {
    const body: Entity
    var playerX: real
    var playerY: real
    var isShot: bool

    /** `Bullet(player_x, player_y)`: a bullet at rest at the given point, not yet fired. */
    constructor (playerX: real, playerY: real)
      ensures fresh(body) && body.State() == Spawned(Vector2(playerX, playerY))
      ensures this.playerX == playerX && this.playerY == playerY && !isShot
    {
      body := new Entity(Vector2(playerX, playerY));
      this.playerX := playerX;
      this.playerY := playerY;
      isShot := false;
    }

    /** `fire_bullet()`: while the fire key (left Alt) is down the bullet is sent
        straight up at 300 and marked as shot; otherwise nothing changes. Once shot it
        stays shot. */
    method FireBullet(keys: Keys) returns (fired: bool)
      modifies this, body
      ensures fired == keys.leftAlt
      ensures isShot == (old(isShot) || fired)
      ensures fired ==> body.State() == old(body.State()).(velocity := Vector2(old(body.velocity.x), ShotSpeed))
      ensures !fired ==> body.State() == old(body.State())
      ensures playerX == old(playerX) && playerY == old(playerY)
    {
      if keys.leftAlt {
        body.velocity := body.velocity.(y := ShotSpeed);
        isShot := true;
        return true;
      }
      return false;
    }

    /** `respawn_bullet()`: back to the origin, at rest, facing right-to-left, with no
        contacts. The shot flag and the dead flag are left as they were. */
    method RespawnBullet()
      modifies body
      ensures body.State() == old(body.State()).(position := Zero, velocity := Zero, rightToLeft := true, touches := 0)
    {
      var v := Vector2(0.0, 0.0);
      body.position := v;
      body.velocity := Zero;
      body.rightToLeft := true;
      body.touches := 0;
    }
  }
}

=== FILE: controls.dfy ===
/** The keys the entities read, as one immutable snapshot per frame (the KEYMAP
    dictionary of test.py, which the event loop fills in). */
module Controls {

  datatype Keys = Keys(left: bool, right: bool, up: bool, down: bool, space: bool, leftAlt: bool)

  /** The direction `Spaceship.update` records last in `prev_press`. */
  datatype Press = NoPress | Up | Down | Left | Right
}

=== FILE: enemy.dfy ===
/** The enemies of test.py (class Enemy): a five-frame sprite cycle and a random drift
    towards the facing side, capped in speed, plus a downward fall. */
module Enemies {
  import opened Vectors
  import opened Entities

  const SpriteCount := 5
  /** `MAX_THRUST` is 200; velocities are compared with its square. */
  const MaxSpeedSquared := 40000.0

  /** The sprite index after one `update_sprite`: 4 wraps to 0, the others advance. */
  function NextSprite(i: int): (r: int)
    requires 0 <= i < SpriteCount
    ensures 0 <= r < SpriteCount
    ensures r == (i + 1) % SpriteCount
  {
    if i == 4 then 0 else i + 1
  }

  /** The sprite index after `n` calls of `update_sprite`. */
  function SpriteAfter(i: int, n: nat): (r: int)
    requires 0 <= i < SpriteCount
    ensures 0 <= r < SpriteCount
    decreases n
  {
    if n == 0 then i else SpriteAfter(NextSprite(i), n - 1)
  }

  /** `n` steps of the cycle advance the index by `n` modulo 5. */
  lemma {:induction false} SpriteAfterIsModular(i: int, n: nat)
    requires 0 <= i < SpriteCount
    ensures SpriteAfter(i, n) == (i + n) % SpriteCount
    decreases n
  {
    if n > 0 {
      SpriteAfterIsModular(NextSprite(i), n - 1);
      assert (NextSprite(i) + (n - 1)) % SpriteCount == (i + n) % SpriteCount;
    }
  }

  /** Five calls of `update_sprite` bring the sprite back to where it started. */
  lemma FiveStepsReturn(i: int)
    requires 0 <= i < SpriteCount
    ensures SpriteAfter(i, SpriteCount) == i
  {
    SpriteAfterIsModular(i, SpriteCount);
  }

  /** The horizontal thrust step of `move`: towards +x when facing right-to-left. */
  function Push(rightToLeft: bool, step: real): real {
    if rightToLeft then step else -step
  }

  /** The velocity after `move(dt)` with the draws `thrust` and `dy`: the x thrust is
      undone when it brings the speed to 200 or more, and the fall `dy * dt` is added
      to y afterwards, outside the cap. */
  function Drifted(v: Vector2, rightToLeft: bool, thrust: int, dy: int, dt: real): (r: Vector2)
    requires 1 <= thrust <= 99 && 1 <= dy <= 35
    ensures r.y == v.y + dy as real * dt
    ensures r.x == v.x
         || (r.x == v.x + Push(rightToLeft, thrust as real * dt)
             && LengthSquared(Vector2(r.x, v.y)) < MaxSpeedSquared)
    ensures LengthSquared(Vector2(v.x + Push(rightToLeft, thrust as real * dt), v.y)) >= MaxSpeedSquared ==> r.x == v.x
    ensures LengthSquared(Vector2(v.x + Push(rightToLeft, thrust as real * dt), v.y)) < MaxSpeedSquared ==>
              r.x == v.x + Push(rightToLeft, thrust as real * dt)
  {
    var pushed := Vector2(v.x + Push(rightToLeft, thrust as real * dt), v.y);
    var capped := if LengthSquared(pushed) >= MaxSpeedSquared then v else pushed;
    capped.(y := capped.y + dy as real * dt)
  }

  lemma NonNegativeStep(thrust: int, dt: real)
    requires 1 <= thrust && 0.0 <= dt
    ensures thrust as real * dt >= 0.0
  {
  }

  /** With time running forward the drift never goes against the facing direction. */
  lemma DriftFollowsFacing(v: Vector2, rightToLeft: bool, thrust: int, dy: int, dt: real)
    requires 1 <= thrust <= 99 && 1 <= dy <= 35 && 0.0 <= dt
    ensures rightToLeft ==> Drifted(v, rightToLeft, thrust, dy, dt).x >= v.x
    ensures !rightToLeft ==> Drifted(v, rightToLeft, thrust, dy, dt).x <= v.x
  {
    NonNegativeStep(thrust, dt);
  }

  /** The cap only governs the horizontal thrust: an enemy under the cap can leave
      `move` above it, because the fall is added after the check. */
  lemma DriftCanExceedCap()
    ensures var v := Vector2(0.0, 199.0);
      LengthSquared(v) < MaxSpeedSquared
      && LengthSquared(Drifted(v, true, 1, 35, 1.0)) >= MaxSpeedSquared
  {
    var v := Vector2(0.0, 199.0);
    assert LengthSquared(Vector2(1.0, 199.0)) == 39602.0;
    assert Drifted(v, true, 1, 35, 1.0) == Vector2(1.0, 234.0);
    assert LengthSquared(Vector2(1.0, 234.0)) == 54757.0;
  }

  class Enemy {
    const body: Entity
    var currentSprite: int

    predicate Valid()
      reads this
    {
      0 <= currentSprite < SpriteCount
    }

    /** `Enemy()` with `x` the draw of `random.randint(200, 600)`: at (x, 0), at rest,
        showing the first sprite. */
    constructor (x: int)
      requires 200 <= x <= 600
      ensures fresh(body) && body.State() == Spawned(Vector2(x as real, 0.0))
      ensures currentSprite == 0 && Valid()
    {
      currentSprite := 0;
      body := new Entity(Vector2(x as real, 0.0));
    }

    /** `update_sprite()`. */
    method UpdateSprite()
      requires Valid()
      modifies this`currentSprite
      ensures Valid() && currentSprite == NextSprite(old(currentSprite))
    {
      if currentSprite == 4 {
        currentSprite := 0;
      } else {
        currentSprite := currentSprite + 1;
      }
    }

    /** `move(delta_time)` with the draws `thrust` of `random.randint(1, 99)` and `dy`
        of `random.randint(1, 35)`. */
    method Move(dt: real, thrust: int, dy: int)
      requires 1 <= thrust <= 99 && 1 <= dy <= 35
      modifies body
      ensures body.State() == old(body.State()).(velocity := Drifted(old(body.velocity), old(body.rightToLeft), thrust, dy, dt))
    {
      var prevValue := body.velocity;
      if body.rightToLeft {
        body.velocity := body.velocity.(x := body.velocity.x + thrust as real * dt);
      } else {
        body.velocity := body.velocity.(x := body.velocity.x - thrust as real * dt);
      }
      if LengthSquared(body.velocity) >= MaxSpeedSquared {
        body.velocity := prevValue;
      }
      body.velocity := body.velocity.(y := body.velocity.y + dy as real * dt);
    }
  }
}

=== FILE: entity.dfy ===
/** The base entity of test.py (class Entity): a position, a velocity, a facing flag,
    a counter of border and collision contacts, and a dead flag, updated in place.
    The variants (Spaceship, Enemy, Bullet, Item) each own one Entity as their body.

    EntityState is the value of all five fields at one moment. Each state-changing
    method is specified by a function on EntityState or by a record update of it;
    the properties of the game rules are proved about those functions. */
module Entities {
  import opened Vectors

  /** `borders` bounces an entity whose x leaves [2, 735] or whose y leaves [-100, 535]. */
  const LeftEdge := 2.0
  const RightEdge := 735.0
  const TopEdge := -100.0
  const BottomEdge := 535.0

  /** `collision` fires when the distance is below 36, that is the squared distance below 36 * 36. */
  const CollisionRadiusSquared := 1296.0

  /** The positional nudge `collision` applies on contact. */
  const Nudge := 10.0

  datatype EntityState = EntityState(position: Vector2, velocity: Vector2, rightToLeft: bool, touches: nat, dead: bool)

  /** The outcome of `collision`: its return value and both entities afterwards. */
  datatype Contact = Contact(hit: bool, first: EntityState, second: EntityState)

  /** A freshly constructed entity: at rest, facing right-to-left, no contacts, alive. */
  function Spawned(p: Vector2): EntityState {
    EntityState(p, Zero, true, 0, false)
  }

  /** The region `borders` leaves alone. */
  predicate InField(p: Vector2) {
    LeftEdge <= p.x <= RightEdge && TopEdge <= p.y <= BottomEdge
  }

  /** The test of `is_touching_border`; note that its top edge is 0, not -100. */
  predicate TouchesBorder(p: Vector2) {
    p.x > RightEdge || p.x < LeftEdge || p.y > BottomEdge || p.y < 0.0
  }

  predicate OutX(p: Vector2) {
    p.x > RightEdge || p.x < LeftEdge
  }

  /** Reflecting or stopping one velocity component never enlarges its square. */
  lemma ReflectNoGrowth(a: real, b: real)
    requires b == 0.0 || b == a || b == -a
    ensures Square(b) <= Square(a)
  {
    SquarePositive(a);
    if b == -a {
      calc { Square(b); (-a) * (-a); a * a; }
    }
  }

  /** `borders`: every coordinate outside the field is put back just inside it, the
      velocity is reflected or stopped on the axes involved (a side reflects x and stops
      y, the bottom stops x and reflects y, the top stops x), the facing flag turns away
      from the side that was hit, and a contact is counted for a side or the bottom (not
      for the top). An entity inside the field is left exactly as it was. */
  function Bounced(s: EntityState): (r: EntityState)
    ensures InField(r.position)
    ensures InField(s.position) ==> r == s
    ensures s.position.x > RightEdge ==> r.position.x == 734.0 && !r.rightToLeft && r.velocity.y == 0.0
    ensures s.position.x < LeftEdge ==> r.position.x == 3.0 && r.rightToLeft && r.velocity.y == 0.0
    ensures !OutX(s.position) ==> r.position.x == s.position.x && r.rightToLeft == s.rightToLeft
    ensures OutX(s.position) && TopEdge <= s.position.y <= BottomEdge ==>
              r.velocity == Vector2(-s.velocity.x, 0.0)
    ensures s.position.y > BottomEdge ==>
              r.position.y == 534.0 && r.velocity == Vector2(0.0, if OutX(s.position) then 0.0 else -s.velocity.y)
    ensures s.position.y < TopEdge ==>
              r.position.y == -90.0 && r.velocity == Vector2(0.0, if OutX(s.position) then 0.0 else s.velocity.y)
    ensures TopEdge <= s.position.y <= BottomEdge ==> r.position.y == s.position.y
    ensures r.touches == s.touches + (if OutX(s.position) then 1 else 0) + (if s.position.y > BottomEdge then 1 else 0)
    ensures r.dead == s.dead
  {
    var p := s.position;
    var v := s.velocity;
    EntityState(
      Vector2(if p.x > RightEdge then 734.0 else if p.x < LeftEdge then 3.0 else p.x,
              if p.y > BottomEdge then 534.0 else if p.y < TopEdge then -90.0 else p.y),
      Vector2(if p.y > BottomEdge || p.y < TopEdge then 0.0 else if OutX(p) then -v.x else v.x,
              if OutX(p) then 0.0 else if p.y > BottomEdge then -v.y else v.y),
      if p.x > RightEdge then false else if p.x < LeftEdge then true else s.rightToLeft,
      s.touches + (if OutX(p) then 1 else 0) + (if p.y > BottomEdge then 1 else 0),
      s.dead)
  }

  /** `borders` never speeds an entity up. */
  lemma BouncedNoGrowth(s: EntityState)
    ensures LengthSquared(Bounced(s).velocity) <= LengthSquared(s.velocity)
  {
    var v, w := s.velocity, Bounced(s).velocity;
    ReflectNoGrowth(v.x, w.x);
    ReflectNoGrowth(v.y, w.y);
  }

  /** Bouncing twice is bouncing once. */
  lemma BouncedIdempotent(s: EntityState)
    ensures Bounced(Bounced(s)) == Bounced(s)
  {
  }

  /** `borders` changes an entity exactly when it is outside the field. */
  lemma BouncedChangesIffOutside(s: EntityState)
    ensures Bounced(s) == s <==> InField(s.position)
  {
  }

  /** After `borders` an entity can still count as touching a border for
      `is_touching_border`, but only in the strip above the screen (y in [-100, 0)). */
  lemma TouchingAfterBounce(s: EntityState)
    ensures TouchesBorder(Bounced(s).position) <==> Bounced(s).position.y < 0.0
  {
  }

  /** An entity that does not touch a border is inside the field, so `borders` leaves it alone. */
  lemma NotTouchingIsInField(p: Vector2)
    ensures !TouchesBorder(p) ==> InField(p)
  {
  }

  /** `collision(self, other)` on two distinct entities with the random draws `rnd` (in
      [7, 10]) and `rnd1` (in [6, 9]). Within distance 36 it reports a hit, nudges `self`
      by 10 against its horizontal motion (or, when `self` has no horizontal motion, moves
      the two apart vertically by 10 each), reverses and damps `other` horizontally and
      reflects it vertically, reflects `self` horizontally and damps it vertically, and
      counts two contacts on `self` and none on `other`. Farther apart, nothing changes. */
  function Collided(a: EntityState, b: EntityState, rnd: int, rnd1: int): (c: Contact)
    requires 7 <= rnd <= 10 && 6 <= rnd1 <= 9
    ensures c.hit <==> DistanceSquared(a.position, b.position) < CollisionRadiusSquared
    ensures !c.hit ==> c.first == a && c.second == b
    ensures c.hit ==> c.first.touches == a.touches + 2 && c.second.touches == b.touches
    ensures c.hit ==> c.first.velocity.x == -a.velocity.x && c.second.velocity.y == -b.velocity.y
    ensures c.hit ==> (c.first.velocity.y == a.velocity.y * (-0.1 * rnd1 as real)
                       && c.second.velocity.x == b.velocity.x * (-0.1 * rnd as real))
    ensures c.hit && a.velocity.x > 0.0 ==>
              c.first.position == Vector2(a.position.x - Nudge, a.position.y) && c.second.position == b.position
    ensures c.hit && a.velocity.x < 0.0 ==>
              c.first.position == Vector2(a.position.x + Nudge, a.position.y) && c.second.position == b.position
    ensures c.hit && a.velocity.x == 0.0 ==>
              c.first.position == Vector2(a.position.x, a.position.y + Nudge)
              && c.second.position == Vector2(b.position.x, b.position.y - Nudge)
    ensures c.first.rightToLeft == a.rightToLeft && c.first.dead == a.dead
    ensures c.second.rightToLeft == b.rightToLeft && c.second.dead == b.dead
  {
    if DistanceSquared(a.position, b.position) >= CollisionRadiusSquared then
      Contact(false, a, b)
    else
      var push := if a.velocity.x > 0.0 then Vector2(-Nudge, 0.0)
                  else if a.velocity.x < 0.0 then Vector2(Nudge, 0.0)
                  else Vector2(0.0, Nudge);
      var pull := if a.velocity.x == 0.0 then Vector2(0.0, -Nudge) else Zero;
      var firstFactor := Vector2(-1.0, -0.1 * rnd1 as real);
      var secondFactor := Vector2(-0.1 * rnd as real, -1.0);
      Contact(true,
              a.(position := Add(a.position, push), velocity := Mul(a.velocity, firstFactor), touches := a.touches + 2),
              b.(position := Add(b.position, pull), velocity := Mul(b.velocity, secondFactor)))
  }

  /** A collision damps both entities: neither comes out of it faster than it went in. */
  lemma CollidedNoGrowth(a: EntityState, b: EntityState, rnd: int, rnd1: int)
    requires 7 <= rnd <= 10 && 6 <= rnd1 <= 9
    ensures LengthSquared(Collided(a, b, rnd, rnd1).first.velocity) <= LengthSquared(a.velocity)
    ensures LengthSquared(Collided(a, b, rnd, rnd1).second.velocity) <= LengthSquared(b.velocity)
  {
    if DistanceSquared(a.position, b.position) < CollisionRadiusSquared {
      MulNoGrowth(a.velocity, Vector2(-1.0, -0.1 * rnd1 as real));
      MulNoGrowth(b.velocity, Vector2(-0.1 * rnd as real, -1.0));
    }
  }

  /** `collision(self, self)`: the distance is 0, so it always hits; the vertical
      nudges cancel out and both velocity factors apply to the one entity, the one
      meant for `other` first, so the two sign flips cancel and only the damping by
      rnd/10 and rnd1/10 remains. The game loop never collides an entity with itself;
      this case only completes the model of `collision`. */
  function SelfCollided(s: EntityState, rnd: int, rnd1: int): (r: EntityState)
    requires 7 <= rnd <= 10 && 6 <= rnd1 <= 9
    ensures r.touches == s.touches + 2
    ensures r.position.y == s.position.y
    ensures s.velocity.x > 0.0 ==> r.position.x == s.position.x - Nudge
    ensures s.velocity.x < 0.0 ==> r.position.x == s.position.x + Nudge
    ensures s.velocity.x == 0.0 ==> r.position.x == s.position.x
    ensures r.velocity == Vector2(s.velocity.x * (0.1 * rnd as real), s.velocity.y * (0.1 * rnd1 as real))
    ensures r.rightToLeft == s.rightToLeft && r.dead == s.dead
  {
    var once := Mul(s.velocity, Vector2(-0.1 * rnd as real, -1.0));
    s.(position := if s.velocity.x > 0.0 then Vector2(s.position.x - Nudge, s.position.y)
                   else if s.velocity.x < 0.0 then Vector2(s.position.x + Nudge, s.position.y)
                   else s.position,
       velocity := Mul(once, Vector2(-1.0, -0.1 * rnd1 as real)),
       touches := s.touches + 2)
  }

  /** The positional nudge does not always separate: here the nudge carries `self`
      through `other` to the mirror position, at the same distance as before. */
  lemma NudgeMayKeepDistance()
    ensures var a := EntityState(Vector2(5.0, 0.0), Vector2(1.0, 0.0), true, 0, false);
            var b := Spawned(Zero);
            var c := Collided(a, b, 7, 6);
            c.hit && DistanceSquared(c.first.position, c.second.position) == DistanceSquared(a.position, b.position)
  {
  }

  /** `die` with the random draws `x` in [10, 600] and `y` in [50, 100]: the entity is
      parked above the screen, at rest and marked dead, still inside the region that
      `borders` leaves alone. */
  function Killed(s: EntityState, x: int, y: int): (r: EntityState)
    requires 10 <= x <= 600 && 50 <= y <= 100
    ensures r.position == Vector2(x as real, -y as real)
    ensures InField(r.position) && r.position.y < 0.0
    ensures r.velocity == Zero && r.dead
    ensures r.rightToLeft == s.rightToLeft && r.touches == s.touches
  {
    s.(position := Vector2(x as real, -y as real), velocity := Zero, dead := true)
  }

  /** `respawn` with the random draw `rndX` in [200, 700]: the contact counter is reset,
      and an entity that made more than 10 contacts is moved to x = rndX just above the
      screen; its velocity is kept. */
  function Respawned(s: EntityState, touchesInASecond: int, rndX: int): (r: EntityState)
    requires 200 <= rndX <= 700
    ensures r.touches == 0
    ensures touchesInASecond > 10 ==> r.position == Vector2(rndX as real, -50.0) && InField(r.position)
    ensures touchesInASecond <= 10 ==> r.position == s.position
    ensures r.velocity == s.velocity && r.rightToLeft == s.rightToLeft && r.dead == s.dead
  {
    s.(touches := 0, position := if touchesInASecond > 10 then Vector2(rndX as real, -50.0) else s.position)
  }

  class Entity {
    var position: Vector2
    var velocity: Vector2
    var rightToLeft: bool
    var touches: nat
    var dead: bool

    function State(): EntityState
      reads this
    {
      EntityState(position, velocity, rightToLeft, touches, dead)
    }

    constructor (p: Vector2)
      ensures State() == Spawned(p)
    {
      position := p;
      velocity := Zero;
      rightToLeft := true;
      touches := 0;
      dead := false;
    }

    /** `update`: one step of motion, position += velocity * dt. */
    method Update(dt: real)
      modifies this
      ensures State() == old(State()).(position := Add(old(position), Scale(velocity, dt)))
    {
      position := Add(position, Scale(velocity, dt));
    }

    method IsDead() returns (d: bool)
      ensures d == State().dead
    {
      d := dead;
    }

    /** `respawn(touches_in_a_second)`, the random x drawn by the caller. */
    method Respawn(touchesInASecond: int, rndX: int)
      requires 200 <= rndX <= 700
      modifies this
      ensures State() == Respawned(old(State()), touchesInASecond, rndX)
    {
      touches := 0;
      if touchesInASecond > 10 {
        position := position.(x := rndX as real);
        position := position.(y := -50.0);
      }
    }

    /** `die()`, the random coordinates drawn by the caller; it always reports true. */
    method Die(x: int, y: int) returns (died: bool)
      requires 10 <= x <= 600 && 50 <= y <= 100
      modifies this
      ensures died
      ensures State() == Killed(old(State()), x, y)
    {
      var v := Zero;
      var pos := Vector2(x as real, -y as real);
      velocity := v;
      position := pos;
      dead := true;
      died := true;
    }

    /** `borders()`, step by step as the source does it. */
    method Borders()
      modifies this
      ensures State() == Bounced(old(State()))
      ensures InField(position)
    {
      var x := position.x;
      var y := position.y;
      var v := Vector2(-1.0, 0.0);
      if x > RightEdge {
        position := position.(x := 734.0);
        velocity := Mul(velocity, v);
        touches := touches + 1;
        rightToLeft := false;
      } else if x < LeftEdge {
        position := position.(x := 3.0);
        velocity := Mul(velocity, v);
        touches := touches + 1;
        rightToLeft := true;
      }
      if y > BottomEdge {
        position := position.(y := 534.0);
        touches := touches + 1;
        velocity := Mul(velocity, Vector2(0.0, -1.0));
      }
      if y < TopEdge {
        position := position.(y := -90.0);
        velocity := Mul(velocity, Vector2(0.0, 1.0));
      }
    }

    /** `is_touching_border()`. */
    method IsTouchingBorder() returns (touching: bool)
      ensures touching <==> TouchesBorder(position)
    {
      var x := position.x;
      var y := position.y;
      if x > RightEdge {
        return true;
      } else if x < LeftEdge {
        return true;
      }
      if y > BottomEdge {
        return true;
      }
      if y < -0.0 {
        return true;
      }
      return false;
    }

    /** `collision(other)`, the two random draws made by the caller. The source returns
        None rather than False when there is no contact; both are false here. */
    method Collision(other: Entity, rnd: int, rnd1: int) returns (hit: bool)
      requires 7 <= rnd <= 10 && 6 <= rnd1 <= 9
      modifies this, other
      ensures other != this ==>
                Contact(hit, State(), other.State()) == Collided(old(State()), old(other.State()), rnd, rnd1)
      ensures other == this ==> hit && State() == SelfCollided(old(State()), rnd, rnd1)
    {
      hit := false;
      if DistanceSquared(position, other.position) < CollisionRadiusSquared {
        if velocity.x > 0.0 {
          position := position.(x := position.x - Nudge);
        } else if velocity.x < 0.0 {
          position := position.(x := position.x + Nudge);
        } else {
          position := position.(y := position.y + Nudge);
          other.position := other.position.(y := other.position.y - Nudge);
        }
        other.velocity := Mul(other.velocity, Vector2(-0.1 * rnd as real, -1.0));
        touches := touches + 1;
        velocity := Mul(velocity, Vector2(-1.0, -0.1 * rnd1 as real));
        touches := touches + 1;
        hit := true;
      }
    }
  }
}

=== FILE: item.dfy ===
/** The heart pickup of test.py (class Item): it appears at a random point of the
    screen and, when the ship comes within 36 of it, gives the ship a life and moves
    off screen. */
module Items {
  import opened Vectors
  import opened Entities
  import opened Spaceships

  /** Where a collected heart is parked. */
  const Parked := Vector2(-100.0, -100.0)

  /** The area `appear` draws from. */
  predicate OnScreen(p: Vector2) {
    0.0 <= p.x <= 730.0 && 0.0 <= p.y <= 530.0
  }

  /** `pickup`'s test: closer than 36 to the ship. */
  predicate InReach(item: Vector2, ship: Vector2) {
    DistanceSquared(item, ship) < CollisionRadiusSquared
  }

  lemma FarSquare(a: real)
    requires a <= -102.0
    ensures Square(a) >= CollisionRadiusSquared
  {
    calc {
      Square(a);
      (-a) * (-a);
      >= { FractionOf(102.0 / (-a), -a); }
      102.0 * (-a);
      >= 10404.0;
    }
  }

  /** A parked heart can be collected again by no ship inside the field (x >= 2, as
      `borders` keeps it), and is off screen. */
  lemma ParkedOutOfReach(ship: Vector2)
    requires ship.x >= LeftEdge
    ensures !InReach(Parked, ship) && !OnScreen(Parked)
  {
    FarSquare(Parked.x - ship.x);
    SquarePositive(Parked.y - ship.y);
  }

  class Item {
    const body: Entity

    /** `Item()`: at the origin, at rest. */
    constructor ()
      ensures fresh(body) && body.State() == Spawned(Zero)
    {
      body := new Entity(Zero);
    }

    /** `appear()` with the draws `x` of `random.randint(0, 730)` and `y` of
        `random.randint(0, 530)`: the heart is placed on screen at (x, y). */
    method Appear(x: int, y: int)
      requires 0 <= x <= 730 && 0 <= y <= 530
      modifies body
      ensures body.State() == old(body.State()).(position := Vector2(x as real, y as real))
      ensures OnScreen(body.position)
    {
      body.position := body.position.(x := x as real);
      body.position := body.position.(y := y as real);
    }

    /** `pickup(spaceship)`. */
    method Pickup(ship: Spaceship)
      modifies body, ship
      ensures InReach(old(body.position), old(ship.body.position)) ==>
        body.State() == old(body.State()).(position := Parked) && ship.lives == old(ship.lives) + 1
      ensures !InReach(old(body.position), old(ship.body.position)) ==>
        body.State() == old(body.State()) && ship.lives == old(ship.lives)
      ensures ship.kills == old(ship.kills) && ship.teleportPoints == old(ship.teleportPoints)
    {
      if DistanceSquared(body.position, ship.body.position) < CollisionRadiusSquared {
        body.position := body.position.(x := -100.0);
        body.position := body.position.(y := -100.0);
        ship.lives := ship.lives + 1;
      }
    }
  }
}

=== FILE: life.dfy ===
/** The life bookkeeping of test.py's main loop: a hit on the ship costs a life unless
    a one-second cooldown is running, and the game stops when no life is left. The
    wall clock is a parameter: one `now` per check stands for both of that check's
    `time.time()` readings (the expiry test and the new deadline), and `hit` for the
    outcome of the ship's collision tests against the three enemies. The heart's
    pickup, which also adds to the lives, is not one of these events. */
module LifeSystem {

  datatype LifeState = LifeState(lives: int, cooldown: bool, deadline: real, running: bool)

  /** One collision test of a frame: the clock reading and whether the ship was hit. */
  datatype Check = Check(now: real, hit: bool)

  /** The start of a frame: the deadline `t` is reset to the current time. */
  function StartFrame(s: LifeState, now: real): (r: LifeState)
    ensures r.lives == s.lives && r.cooldown == s.cooldown && r.running == s.running
    ensures r.deadline == now
  {
    s.(deadline := now)
  }

  /** One pass of the hit test: the cooldown ends once the clock is past the deadline;
      then a hit outside the cooldown costs a life, starts a one-second cooldown and,
      when no life is left, stops the game. */
  function CheckHit(s: LifeState, c: Check): (r: LifeState)
    ensures r.lives == s.lives - 1 <==> c.hit && !(s.cooldown && c.now <= s.deadline)
    ensures r.lives == s.lives || r.lives == s.lives - 1
    ensures r.lives < s.lives ==> r.cooldown && r.deadline == c.now + 1.0
    ensures r.lives == s.lives ==> r.deadline == s.deadline && r.running == s.running
    ensures r.lives == s.lives ==> r.cooldown == (s.cooldown && c.now <= s.deadline)
    ensures r.running <==> s.running && (r.lives == s.lives || r.lives >= 1)
  {
    var cooldown := if c.now > s.deadline then false else s.cooldown;
    if c.hit && !cooldown then
      s.(lives := s.lives - 1, cooldown := true, deadline := c.now + 1.0,
         running := if s.lives - 1 < 1 then false else s.running)
    else
      s.(cooldown := cooldown)
  }

  /** A run of hit tests, in order. */
  function CheckHits(s: LifeState, cs: seq<Check>): LifeState
    decreases |cs|
  {
    if |cs| == 0 then s else CheckHits(CheckHit(s, cs[0]), cs[1..])
  }

  /** Lives only go down, by at most one per test, and a stopped game stays stopped. */
  lemma {:induction false} CheckHitsMonotone(s: LifeState, cs: seq<Check>)
    ensures s.lives - |cs| <= CheckHits(s, cs).lives <= s.lives
    ensures !s.running ==> !CheckHits(s, cs).running
    decreases |cs|
  {
    if |cs| > 0 {
      CheckHitsMonotone(CheckHit(s, cs[0]), cs[1..]);
    }
  }

  /** Over a run of hit checks, the game stops exactly when the lives fall below 1
      through a hit. */
  lemma {:induction false} GameOverWhenOutOfLives(s: LifeState, cs: seq<Check>)
    requires s.running == (s.lives >= 1)
    ensures CheckHits(s, cs).running == (CheckHits(s, cs).lives >= 1)
    decreases |cs|
  {
    if |cs| > 0 {
      GameOverWhenOutOfLives(CheckHit(s, cs[0]), cs[1..]);
    }
  }

  /** While the cooldown runs, no hit costs a life: within one frame (no
      `StartFrame` in between), tests up to the deadline change nothing. */
  lemma {:induction false} CooldownAbsorbsHits(s: LifeState, cs: seq<Check>)
    requires s.cooldown
    requires forall i :: 0 <= i < |cs| ==> cs[i].now <= s.deadline
    ensures CheckHits(s, cs) == s
    decreases |cs|
  {
    if |cs| > 0 {
      assert CheckHit(s, cs[0]) == s;
      CooldownAbsorbsHits(s, cs[1..]);
    }
  }

  /** Within one frame (no `StartFrame` in between), a hit that costs a life shields
      the ship for one second: every later test of that frame up to a second after
      it leaves the lives alone. */
  lemma OneLifePerSecond(s: LifeState, c: Check, cs: seq<Check>)
    requires c.hit && !(s.cooldown && c.now <= s.deadline)
    requires forall i :: 0 <= i < |cs| ==> cs[i].now <= c.now + 1.0
    ensures CheckHits(s, [c] + cs).lives == s.lives - 1
  {
    assert ([c] + cs)[1..] == cs;
    CooldownAbsorbsHits(CheckHit(s, c), cs);
  }

  /** Because every frame resets the deadline to its start time, a hit later in the
      frame always costs a life, whatever cooldown the previous frame left running. */
  lemma FrameStartEndsCooldown(s: LifeState, start: real, now: real)
    requires start < now
    ensures CheckHit(StartFrame(s, start), Check(now, true)).lives == s.lives - 1
  {
  }
}

=== FILE: spaceship.dfy ===
/** The player's ship of test.py (class Spaceship): thrust from the arrow keys, a
    speed cap enforced by reverting the velocity, a sideways teleport that spends a
    point, and the reward of teleport points for kills. */
module Spaceships {
  import opened Vectors
  import opened Entities
  import opened Controls
  import opened Bullets

  const Thrust := 100.0
  /** `MAX_THRUST` is 300; velocities are compared with its square. */
  const MaxSpeedSquared := 90000.0
  const TeleportJump := 100.0
  const InitialTeleportPoints := 3
  const MaxTeleportPoints := 10
  /** The horizontal offset of a new bullet from the ship's position. */
  const MuzzleOffset := 12.0

  /** The direction `update` records last: the later tests (right, then left, then
      down, then up) overwrite the earlier ones. */
  function LastPress(k: Keys): Press {
    if k.right then Right else if k.left then Left else if k.down then Down else if k.up then Up else NoPress
  }

  /** The velocity after the four thrust tests of `update`, before the cap. */
  function Thrusted(v: Vector2, k: Keys, dt: real): Vector2 {
    Vector2(v.x - (if k.left then Thrust * dt else 0.0) + (if k.right then Thrust * dt else 0.0),
            v.y - (if k.up then Thrust * dt else 0.0) + (if k.down then Thrust * dt else 0.0))
  }

  /** The velocity `update` leaves: the thrusted one if it is under the cap,
      otherwise exactly the one before the update (a revert, not a clamp). */
  function CappedVelocity(v: Vector2, k: Keys, dt: real): (r: Vector2)
    ensures (r == Thrusted(v, k, dt) && LengthSquared(r) < MaxSpeedSquared) || r == v
    ensures LengthSquared(Thrusted(v, k, dt)) >= MaxSpeedSquared ==> r == v
    ensures LengthSquared(Thrusted(v, k, dt)) < MaxSpeedSquared ==> r == Thrusted(v, k, dt)
  {
    if LengthSquared(Thrusted(v, k, dt)) >= MaxSpeedSquared then v else Thrusted(v, k, dt)
  }

  /** A ship slower than the cap stays slower than the cap. */
  lemma SpeedCapPreserved(v: Vector2, k: Keys, dt: real)
    requires LengthSquared(v) < MaxSpeedSquared
    ensures LengthSquared(CappedVelocity(v, k, dt)) < MaxSpeedSquared
  {
  }

  /** The horizontal teleport jump of one `update`: with the space key held and a point
      to spend, +100 when right was the last direction tested, -100 when it was left. */
  function TeleportShift(k: Keys, points: int): (dx: real)
    ensures dx == TeleportJump <==> k.space && points > 0 && k.right
    ensures dx == -TeleportJump <==> k.space && points > 0 && k.left && !k.right
    ensures dx == 0.0 || dx == TeleportJump || dx == -TeleportJump
    ensures !k.left && !k.right ==> dx == 0.0
  {
    if k.space && points > 0 then
      match LastPress(k)
      case Right => TeleportJump
      case Left => -TeleportJump
      case _ => 0.0
    else 0.0
  }

  /** The points one `update` spends: one per jump, and only when there was one. */
  function TeleportCost(k: Keys, points: int): (c: int)
    ensures c == 0 || c == 1
    ensures c == 1 <==> TeleportShift(k, points) != 0.0
    ensures c == 1 ==> points > 0
  {
    if TeleportShift(k, points) != 0.0 then 1 else 0
  }

  /** Teleport points never go negative through `update`. */
  lemma TeleportNeverOverdraws(k: Keys, points: int)
    requires points >= 0
    ensures 0 <= points - TeleportCost(k, points) <= points
  {
  }

  /** The ship's entity state after `update(dt)` with keys `k` and `points` teleport
      points: velocity capped, x shifted by the teleport, then moved by the velocity. */
  function ShipUpdated(s: EntityState, points: int, k: Keys, dt: real): (r: EntityState)
    ensures r.velocity == CappedVelocity(s.velocity, k, dt)
    ensures r.position.y == s.position.y + r.velocity.y * dt
    ensures r.position.x == s.position.x + r.velocity.x * dt
         || r.position.x == s.position.x + r.velocity.x * dt + TeleportJump
         || r.position.x == s.position.x + r.velocity.x * dt - TeleportJump
    ensures r.rightToLeft == s.rightToLeft && r.touches == s.touches && r.dead == s.dead
  {
    var v := CappedVelocity(s.velocity, k, dt);
    s.(position := Add(Vector2(s.position.x + TeleportShift(k, points), s.position.y), Scale(v, dt)),
       velocity := v)
  }

  /** Holding only up and down never teleports and never spends a point. */
  lemma UpDownNeverTeleports(s: EntityState, points: int, k: Keys, dt: real)
    requires !k.left && !k.right
    ensures TeleportCost(k, points) == 0
    ensures ShipUpdated(s, points, k, dt).position == Add(s.position, Scale(ShipUpdated(s, points, k, dt).velocity, dt))
  {
    assert TeleportShift(k, points) == 0.0;
  }

  /** `teleport_points_add`, called right after `kills` is incremented. Python reads
      `kills - 1 % 2` as `kills - (1 % 2)`, that is `kills - 1`, so a point is
      granted whenever the kill count is not 1 and fewer than 10 are held. */
  function TeleportGrant(kills: int, points: int): (r: int)
    ensures r == points + 1 <==> kills != 1 && points < MaxTeleportPoints
    ensures r == points || r == points + 1
    ensures points <= MaxTeleportPoints ==> r <= MaxTeleportPoints
  {
    if kills - 1 % 2 != 0 && points < MaxTeleportPoints then points + 1 else points
  }

  /** The teleport points after `n` more kills, each incrementing `kills` and then
      calling `teleport_points_add`. */
  function PointsAfterKills(kills: int, points: int, n: nat): int
    decreases n
  {
    if n == 0 then points else PointsAfterKills(kills + 1, TeleportGrant(kills + 1, points), n - 1)
  }

  function Min(a: int, b: int): int {
    if a <= b then a else b
  }

  /** Every kill but the very first earns a point, up to the cap of 10. */
  lemma {:induction false} PointsAfterKillsClosedForm(kills: nat, points: int, n: nat)
    requires points <= MaxTeleportPoints
    ensures PointsAfterKills(kills, points, n)
         == Min(MaxTeleportPoints, points + n - (if kills == 0 && n > 0 then 1 else 0))
    decreases n
  {
    if n > 0 {
      var p := TeleportGrant(kills + 1, points);
      PointsAfterKillsClosedForm(kills + 1, p, n - 1);
    }
  }

  /** Starting from at most 10, no run of kills lifts the points above 10. */
  lemma PointsNeverExceedCap(kills: nat, points: int, n: nat)
    requires points <= MaxTeleportPoints
    ensures PointsAfterKills(kills, points, n) <= MaxTeleportPoints
  {
    PointsAfterKillsClosedForm(kills, points, n);
  }

  class Spaceship {
    const body: Entity
    var lives: int
    var kills: int
    var teleportPoints: int

    /** The range the teleport points keep while only `update` and
        `teleport_points_add` change them. */
    predicate PointsInRange()
      reads this
    {
      0 <= teleportPoints <= MaxTeleportPoints
    }

    /** `Spaceship()`: at (350, 500), at rest, with 3 lives, no kills and 3 points. */
    constructor ()
      ensures fresh(body) && body.State() == Spawned(Vector2(350.0, 500.0))
      ensures lives == 3 && kills == 0 && teleportPoints == InitialTeleportPoints
      ensures PointsInRange()
    {
      body := new Entity(Vector2(350.0, 500.0));
      lives := 3;
      kills := 0;
      teleportPoints := InitialTeleportPoints;
    }

    /** `update(delta_time)` under the key snapshot `keys`. */
    method Update(keys: Keys, dt: real)
      modifies this, body
      ensures body.State() == ShipUpdated(old(body.State()), old(teleportPoints), keys, dt)
      ensures teleportPoints == old(teleportPoints) - TeleportCost(keys, old(teleportPoints))
      ensures lives == old(lives) && kills == old(kills)
      ensures old(PointsInRange()) ==> PointsInRange()
    {
      var prevValue := body.velocity;
      var prevPress := ApplyThrust(keys, dt);
      Teleport(keys, prevPress);
      if LengthSquared(body.velocity) >= MaxSpeedSquared {
        body.velocity := prevValue;
      }
      body.Update(dt);
    }

    /** The four thrust tests of `update`, recording the last direction pressed. */
    method ApplyThrust(keys: Keys, dt: real) returns (prevPress: Press)
      modifies body
      ensures prevPress == LastPress(keys)
      ensures body.State() == old(body.State()).(velocity := Thrusted(old(body.velocity), keys, dt))
    {
      prevPress := NoPress;
      if keys.up {
        body.velocity := body.velocity.(y := body.velocity.y - Thrust * dt);
        prevPress := Up;
      }
      if keys.down {
        body.velocity := body.velocity.(y := body.velocity.y + Thrust * dt);
        prevPress := Down;
      }
      if keys.left {
        prevPress := Left;
        body.velocity := body.velocity.(x := body.velocity.x - Thrust * dt);
      }
      if keys.right {
        prevPress := Right;
        body.velocity := body.velocity.(x := body.velocity.x + Thrust * dt);
      }
    }

    /** The teleport test of `update`. */
    method Teleport(keys: Keys, prevPress: Press)
      requires prevPress == LastPress(keys)
      modifies this, body
      ensures body.State() == old(body.State()).(position := old(body.position).(x := old(body.position.x) + TeleportShift(keys, old(teleportPoints))))
      ensures teleportPoints == old(teleportPoints) - TeleportCost(keys, old(teleportPoints))
      ensures lives == old(lives) && kills == old(kills)
    {
      if keys.space && teleportPoints > 0 {
        if prevPress == Right {
          body.position := body.position.(x := body.position.x + TeleportJump);
          UseTeleport();
        }
        if prevPress == Left {
          body.position := body.position.(x := body.position.x - TeleportJump);
          UseTeleport();
        }
      }
    }

    /** `use_teleport()`: spends one point. */
    method UseTeleport()
      modifies this`teleportPoints
      ensures teleportPoints == old(teleportPoints) - 1
    {
      teleportPoints := teleportPoints - 1;
    }

    /** `firepos()`: a fresh, unfired bullet 12 to the right of the ship. */
    method FirePos() returns (b: Bullet)
      ensures fresh(b) && fresh(b.body)
      ensures b.body.State() == Spawned(Vector2(body.position.x + MuzzleOffset, body.position.y))
      ensures b.playerX == body.position.x + MuzzleOffset && b.playerY == body.position.y && !b.isShot
    {
      b := new Bullet(body.position.x + MuzzleOffset, body.position.y);
    }

    /** `teleport_points_add()`. */
    method TeleportPointsAdd()
      modifies this`teleportPoints
      ensures teleportPoints == TeleportGrant(kills, old(teleportPoints))
      ensures old(PointsInRange()) ==> PointsInRange()
    {
      if kills - 1 % 2 != 0 && teleportPoints < MaxTeleportPoints {
        teleportPoints := teleportPoints + 1;
      }
    }
  }
}

=== FILE: vector2.dfy ===
/** Two-dimensional vectors with value semantics (class Vector2 of test.py).
    Every operation returns a new vector, so `copy()` is plain value assignment here.
    Lengths are compared with constants through their squares. The only root the
    model uses is the `length` parameter of `ShortenLength`, which the caller
    supplies. */
module Vectors {

  datatype Vector2 = Vector2(x: real, y: real)

  /** The failure of a degenerate vector operation. */
  datatype Error = ZeroDivision

  datatype Result<T> = Ok(value: T) | Err(error: Error)

  const Zero := Vector2(0.0, 0.0)

  /** `v + w` for a vector `w`: component-wise sum. */
  function Add(v: Vector2, w: Vector2): (r: Vector2)
    ensures Vector2(r.x - w.x, r.y - w.y) == v
  {
    Vector2(v.x + w.x, v.y + w.y)
  }

  /** `v + s` for a float `s`: `s` is added to both components. */
  function AddScalar(v: Vector2, s: real): (r: Vector2)
    ensures r == Add(v, Vector2(s, s))
  {
    Vector2(v.x + s, v.y + s)
  }

  /** `v * w` for a vector `w`: component-wise product. */
  function Mul(v: Vector2, w: Vector2): (r: Vector2)
    ensures w == Vector2(1.0, 1.0) ==> r == v
    ensures w.x == 0.0 ==> r.x == 0.0
    ensures w.y == 0.0 ==> r.y == 0.0
  {
    Vector2(v.x * w.x, v.y * w.y)
  }

  /** `v * s` for a float `s`. */
  function Scale(v: Vector2, s: real): (r: Vector2)
    ensures r == Mul(v, Vector2(s, s))
    ensures s == 1.0 ==> r == v
    ensures s == 0.0 ==> r == Zero
  {
    Vector2(v.x * s, v.y * s)
  }

  function Square(a: real): real {
    a * a
  }

  /** The square of `length()`. */
  function LengthSquared(v: Vector2): real {
    Square(v.x) + Square(v.y)
  }

  /** The square of the Euclidean distance between two points. */
  function DistanceSquared(p: Vector2, q: Vector2): real {
    Square(p.x - q.x) + Square(p.y - q.y)
  }

  lemma PositiveProduct(a: real)
    requires a > 0.0
    ensures a * a > 0.0
  {
  }

  lemma SquarePositive(a: real)
    ensures Square(a) >= 0.0
    ensures a != 0.0 ==> Square(a) > 0.0
  {
    if a > 0.0 {
      calc { Square(a); a * a; > { PositiveProduct(a); } 0.0; }
    } else if a < 0.0 {
      calc { Square(a); (-a) * (-a); > { PositiveProduct(-a); } 0.0; }
    }
  }

  /** Only the zero vector has length zero. */
  lemma LengthSquaredPositive(v: Vector2)
    ensures LengthSquared(v) >= 0.0
    ensures LengthSquared(v) == 0.0 <==> v == Zero
  {
    SquarePositive(v.x);
    SquarePositive(v.y);
    if v == Zero {
      calc { LengthSquared(v); Square(0.0) + Square(0.0); 0.0; }
    } else if v.x != 0.0 {
      assert Square(v.x) > 0.0;
    } else {
      assert Square(v.y) > 0.0;
    }
  }

  lemma SquareProduct(a: real, k: real)
    ensures Square(a * k) == Square(k) * Square(a)
  {
  }

  lemma FractionOf(f: real, y: real)
    requires 0.0 <= f <= 1.0 && 0.0 <= y
    ensures f * y <= y
  {
  }

  lemma SquareAtMostOne(k: real)
    requires -1.0 <= k <= 1.0
    ensures Square(k) <= 1.0
  {
    if k >= 0.0 {
      calc { Square(k); k * k; <= { FractionOf(k, k); } k; <= 1.0; }
    } else {
      calc { Square(k); (-k) * (-k); <= { FractionOf(-k, -k); } -k; <= 1.0; }
    }
  }

  /** Multiplying a component by a factor in [-1, 1] never enlarges its square. */
  lemma DampedSquare(a: real, k: real)
    requires -1.0 <= k <= 1.0
    ensures Square(a * k) <= Square(a)
  {
    SquarePositive(a);
    SquarePositive(k);
    SquareAtMostOne(k);
    calc {
      Square(a * k);
      { SquareProduct(a, k); }
      Square(k) * Square(a);
      <= { FractionOf(Square(k), Square(a)); }
      Square(a);
    }
  }

  /** A component-wise product with factors in [-1, 1] (a reflection, a damping or
      the zeroing of an axis) never makes a vector longer. */
  lemma MulNoGrowth(v: Vector2, w: Vector2)
    requires -1.0 <= w.x <= 1.0 && -1.0 <= w.y <= 1.0
    ensures LengthSquared(Mul(v, w)) <= LengthSquared(v)
  {
    DampedSquare(v.x, w.x);
    DampedSquare(v.y, w.y);
    assert LengthSquared(Mul(v, w)) == Square(v.x * w.x) + Square(v.y * w.y);
  }

  /** Scaling by `k` scales the squared length by `k * k`. */
  lemma ScaleLengthSquared(v: Vector2, k: real)
    ensures LengthSquared(Scale(v, k)) == Square(k) * LengthSquared(v)
  {
    SquareProduct(v.x, k);
    SquareProduct(v.y, k);
    assert LengthSquared(Scale(v, k)) == Square(v.x * k) + Square(v.y * k);
  }

  /** `v.shorten_length(reduction)`, that is `v * (1 - reduction / v.length())`.
      `length` stands for `v.length()`, the non-negative root of the squared length,
      which the caller supplies. A zero vector makes the division fail, as Python's
      float division by zero does; every other vector can be shortened. */
  function ShortenLength(v: Vector2, reduction: real, length: real): (r: Result<Vector2>)
    requires 0.0 <= length && Square(length) == LengthSquared(v)
    ensures r.Err? <==> v == Zero
  {
    ZeroLengthIffZero(v, length);
    if length == 0.0 then Err(ZeroDivision) else Ok(Scale(v, 1.0 - reduction / length))
  }

  /** A shortened vector is parallel to the original and its length is
      |length - reduction| (its squared length is the square of `length - reduction`).
      It keeps the original direction while `reduction` is below `length` and points
      the opposite way once `reduction` exceeds it. */
  lemma ShortenLengthResult(v: Vector2, reduction: real, length: real)
    requires 0.0 <= length && Square(length) == LengthSquared(v)
    ensures ShortenLength(v, reduction, length).Ok? ==>
      var w := ShortenLength(v, reduction, length).value;
      LengthSquared(w) == Square(length - reduction) && w.x * v.y == w.y * v.x
    ensures 0.0 < length ==>
      var w := ShortenLength(v, reduction, length).value;
      (reduction < length ==> w.x * v.x + w.y * v.y > 0.0)
      && (reduction > length ==> w.x * v.x + w.y * v.y < 0.0)
  {
    if length != 0.0 {
      var k := 1.0 - reduction / length;
      assert ShortenLength(v, reduction, length) == Ok(Scale(v, k));
      ShortenedLength(v, reduction, length, k);
      ScaleParallel(v, k);
      ShortenedOrientation(v, reduction, length, k);
    }
  }

  lemma ZeroLengthIffZero(v: Vector2, length: real)
    requires 0.0 <= length && Square(length) == LengthSquared(v)
    ensures length == 0.0 <==> v == Zero
  {
    LengthSquaredPositive(v);
    SquarePositive(length);
    if length == 0.0 {
      assert Square(length) == 0.0;
    }
  }

  lemma ScaleParallel(v: Vector2, k: real)
    ensures Scale(v, k).x * v.y == Scale(v, k).y * v.x
  {
    assert (v.x * k) * v.y == (v.y * k) * v.x;
  }

  lemma ShortenedLength(v: Vector2, reduction: real, length: real, k: real)
    requires 0.0 < length && Square(length) == LengthSquared(v)
    requires k == 1.0 - reduction / length
    ensures LengthSquared(Scale(v, k)) == Square(length - reduction)
  {
    assert k * length == length - reduction;
    calc {
      LengthSquared(Scale(v, k));
      { ScaleLengthSquared(v, k); }
      Square(k) * LengthSquared(v);
      Square(k) * Square(length);
      { SquareProduct(length, k); }
      Square(length * k);
      Square(length - reduction);
    }
  }

  /** The dot product of `v * k` with `v` is `k` times the squared length of `v`. */
  lemma ScaleDot(v: Vector2, k: real)
    ensures Scale(v, k).x * v.x + Scale(v, k).y * v.y == k * LengthSquared(v)
  {
    assert (v.x * k) * v.x == k * Square(v.x);
    assert (v.y * k) * v.y == k * Square(v.y);
  }

  lemma SignOfProduct(k: real, a: real)
    requires 0.0 < a
    ensures 0.0 < k ==> k * a > 0.0
    ensures k < 0.0 ==> k * a < 0.0
  {
  }

  lemma ShortenedOrientation(v: Vector2, reduction: real, length: real, k: real)
    requires 0.0 < length && Square(length) == LengthSquared(v)
    requires k == 1.0 - reduction / length
    ensures reduction < length ==> Scale(v, k).x * v.x + Scale(v, k).y * v.y > 0.0
    ensures reduction > length ==> Scale(v, k).x * v.x + Scale(v, k).y * v.y < 0.0
  {
    assert k * length == length - reduction;
    SquarePositive(length);
    ScaleDot(v, k);
    assert reduction < length ==> 0.0 < k;
    assert reduction > length ==> k < 0.0;
    SignOfProduct(k, LengthSquared(v));
  }
}
